=== FILE: README.md ===
# Museum collection sample: collection and cleaning core

A Dafny model of the pure logic inside `data_pipeline.py`, a script that samples
object metadata from a museum collection API, flattens it into rows and derives
a heuristic year. The model covers:

- **ID lookup defaulting** (`fetch_object_ids`): a missing or `null` `objectIDs`
  field gives the empty identifier list.
- **Collection** (`collect`): truncate the identifiers to the sample size `n`,
  fetch each one in order, project each fetched record into a fixed row (with
  `period` falling back to `objectDate`), and skip and log each failed fetch.
  The network is a parameter. The lookup is given by its outcome
  (`Option<SearchBody>`; `None` means the request raised and the run aborts).
  The object endpoint is a function `ObjectID -> Option<ObjectRecord>` (`None`
  means the request, or building the row, raised).
- **Cleaning** (`clean` and its inner `extract_year`): `period_clean` is the
  stripped period, or absent when that is empty. `year` is the value of the
  first match of `\d{3,4}` in it.

Modules: `Wrappers` (Option, Result, Min), `Text` (whitespace, digits,
`str.strip`), `Years` (the regular-expression search and the year),
`Records` (record, row, projection), `Collector` (lookup, truncation, the
collection loop), `Cleaner` (derived columns, `clean`, the whole pipeline).

The main operations are paired with an independent statement about them:
- The position-by-position model of `re.search` is proved equal to a run-by-run
  reference definition: the first four digits of the leftmost run of three or
  more digits (`Years.ExtractYearIsRunYear`).
- `Strip` is proved to be the unique infix that has only whitespace outside it
  and neither starts nor ends with whitespace
  (`Text.StripUnique`).
- The collection loop with its failure log is proved equal to the functional
  filter-map (`Collector.CollectSample`).

Two behaviours of the code that are easy to miss:
- `re.search(r'(\d{3,4})')` takes the first four digits of a longer run
  (`"12345"` gives 1234).
- `clean` raises `KeyError` on a data frame built from no rows (see Findings).

## Model

| member | source | states |
|---|---|---|
| Collector.ObjectIds | data_pipeline.py:18 | the identifiers are the response's list when there is one, and empty when `objectIDs` is missing or null |
| Collector.Take | data_pipeline.py:27 | `ids[:n]` has length `min(n, len(ids))` and is a prefix of `ids` |
| Records.Project | data_pipeline.py:32-44 | a row carries the identifier it was fetched under and no derived columns yet |
| Records.ProjectPeriod | data_pipeline.py:37 | `period` is the record's `period` when present and non-empty, and otherwise its `objectDate`; it is absent exactly when the record's `period` is absent or empty and its `objectDate` is absent |
| Records.ProjectCopies | data_pipeline.py:34-43 | every other column is the record's field of the same name |
| Collector.CollectRows | data_pipeline.py:29-47 | collecting a list of identifiers yields at most one row per identifier |
| Collector.CollectRowsOrder | data_pipeline.py:29-45 | row identifiers form an order-preserving subsequence of the identifiers tried; each row is the projection of the record fetched under its identifier |
| Collector.Collect | data_pipeline.py:25-49 | no dataset exactly when the lookup raised; otherwise at most `min(n, len(ids))` rows |
| Collector.CollectOrder | data_pipeline.py:26-45 | the rows of `collect` follow `ids[:n]` in order, each the projection of its own fetched record |
| Collector.CollectRowsAppend | data_pipeline.py:29-47 | collecting `a + b` gives the rows of `a` then the rows of `b`, and likewise for the failure log |
| Collector.FailureDropsOnlyItsId | data_pipeline.py:30-47 | a failed fetch removes exactly its own identifier: the loop continues and only that identifier is logged |
| Collector.CollectRowsPartition | data_pipeline.py:29-47 | every identifier tried yields a row or a log entry, never both, and it yields a row exactly when its fetch succeeds |
| Collector.AllFetchedKeepsAll | data_pipeline.py:29-45 | when every fetch succeeds, the row identifiers are exactly the identifiers tried |
| Collector.CollectAllFetched | data_pipeline.py:26-45 | when every fetch of the first `n` identifiers succeeds, `collect` returns exactly `min(n, len(ids))` rows, in identifier order |
| Collector.CollectNoIds | data_pipeline.py:18-27 | a missing or null `objectIDs` field gives zero rows for every `n` |
| Collector.CollectScenario | data_pipeline.py:26-47 | with identifiers `[1, 2, 3]`, `n = 3` and only the fetch of 2 failing, the rows are those of 1 and 3 in that order |
| Collector.CollectSample | data_pipeline.py:25-49 | the loop returns the rows of the functional model plus a log that is exactly the failing identifiers of `ids[:n]`, in order; rows plus failures number `min(n, len(ids))` |
| Collector.FailedIds | data_pipeline.py:29-47 | the identifiers whose fetch fails, in the order tried; every entry's fetch failed |
| Collector.FailedIsSubsequence | data_pipeline.py:29-47 | the failure log follows the identifier order |
| Text.SkipSpaces | data_pipeline.py:54 | leading whitespace ends at the first character that is not whitespace, or at the end of the text |
| Text.SkipSpacesBack | data_pipeline.py:54 | trailing whitespace starts just after the last character that is not whitespace, never before the stripped start |
| Text.Strip | data_pipeline.py:54 | `str.strip()` returns an infix with only whitespace outside it, neither starting nor ending with whitespace |
| Text.StripUnique | data_pipeline.py:54 | any infix with that shape is exactly what strip returns |
| Text.StripIdempotent | data_pipeline.py:54 | stripping twice equals stripping once |
| Text.StripEmptyIff | data_pipeline.py:54 | the strip is empty exactly when the text is all whitespace |
| Cleaner.PeriodClean | data_pipeline.py:54 | `period_clean` is never the empty string; it is absent exactly when the period is absent or all whitespace; otherwise it is the stripped period |
| Cleaner.PeriodCleanIdempotent | data_pipeline.py:54 | cleaning an already cleaned period changes nothing |
| Years.MatchLength | data_pipeline.py:60 | the greedy match of `\d{3,4}` takes three or four digits, and only three when no fourth digit follows |
| Years.Search | data_pipeline.py:60 | `re.search` returns the leftmost position where three digits start, and none when there is no such position |
| Years.DecimalValue | data_pipeline.py:62 | `int` of a string of `k` digits is below `10^k` |
| Years.ExtractYear | data_pipeline.py:56-64 | a year is found exactly when the text is present and contains three consecutive digits, and every year lies in 0..9999 |
| Years.DigitRun | data_pipeline.py:60 | the length of the maximal run of digits at a position |
| Years.FirstLongRun | data_pipeline.py:60 | the first run of at least three digits, skipping runs of one or two digits |
| Years.FirstLongRunIsLeftmost | data_pipeline.py:60 | the reference scan returns the leftmost position where three digits start, and nothing exactly when there is none |
| Years.SearchSkips | data_pipeline.py:60 | the search passes over positions where no match starts |
| Years.SearchIsFirstLongRun | data_pipeline.py:60 | position-by-position search and run-by-run search find the same start |
| Years.ExtractYearIsRunYear | data_pipeline.py:60-63 | the year is the value of the first four digits of the leftmost run of at least three digits, and absent when there is no such run |
| Years.DecimalValue3 | data_pipeline.py:62 | a three-digit string is read as a decimal integer |
| Years.DecimalValue4 | data_pipeline.py:62 | a four-digit string is read as a decimal integer |
| Years.YearOfCirca | data_pipeline.py:56-64 | "ca. 1850" gives 1850 |
| Years.YearOfTang | data_pipeline.py:56-64 | "Tang dynasty (618-907)" gives 618: the first run wins |
| Years.YearOfUnknown | data_pipeline.py:56-64 | "Unknown" gives no year |
| Years.YearOfLongRun | data_pipeline.py:60-62 | "12345" gives 1234: at most four digits are taken |
| Years.YearSkipsShortRuns | data_pipeline.py:60-62 | "1st-2nd c. 305" gives 305: runs of one or two digits are skipped |
| Cleaner.DeriveColumns | data_pipeline.py:54-65 | the derived `period_clean` is never empty, and a year is present only with a `period_clean`, within 0..9999 |
| Cleaner.CleanRow | data_pipeline.py:53-65 | a cleaned row differs from the input only in its derived columns, which are set |
| Cleaner.Clean | data_pipeline.py:51-66 | `clean` keeps the number and order of rows and cleans each |
| Cleaner.CleanKeepsColumns | data_pipeline.py:53-65 | every original column of every row, and the row order, are unchanged by `clean` |
| Cleaner.CleanIdempotent | data_pipeline.py:51-66 | applying `clean` twice gives the same dataset as applying it once |
| Cleaner.CleanColumns | data_pipeline.py:54-65 | after `clean`, `period_clean` is never empty, absent exactly for an absent or blank period and otherwise the stripped period, and `year` is the year of `period_clean`, within 0..9999 |
| Cleaner.PipelineAsWritten | data_pipeline.py:48-54 | `clean(collect(...))` as written fails exactly when the lookup fails or no rows were collected |
| Cleaner.AsWrittenFailsWithoutRows | data_pipeline.py:48-54 | with a missing or null `objectIDs` field, or `n = 0`, the pipeline as written raises on the missing `period` column |
| Cleaner.AsWrittenFailsWhenEveryFetchFails | data_pipeline.py:29-54 | when every fetch of the first `n` identifiers fails, the pipeline as written raises on the missing `period` column |
| Cleaner.Pipeline | data_pipeline.py:48-66 | the intended pipeline fails only when the lookup fails; it returns at most `min(n, len(ids))` rows, all cleaned |
| Cleaner.PipelineCorrectsAsWritten | data_pipeline.py:48-54 | the intended pipeline agrees with the one as written wherever that succeeds, and returns the empty dataset where that fails in `clean` |

## Left out

- HTTP requests, timeouts, `raise_for_status` and JSON decoding in `fetch_object_ids` and `fetch_object` (data_pipeline.py:13-23) are network I/O. Only their outcomes are modelled: an optional search response and an optional record per identifier. The query parameters `q` and `hasImages` only shape the request, so they are not modelled.
- The fetcher is a function of the identifier. A repeated identifier therefore gets the same outcome on every try, where the real network could answer differently. None of the lemmas needs the identifiers to be distinct.
- A fetched body that is not a JSON object makes `obj.get` raise inside the same `try`. It is folded into the fetcher's `None`.
- The failure diagnostic `print` (data_pipeline.py:47) is modelled as the list of failed identifiers that `CollectSample` returns. The text of the message and the exception are not modelled.
- `visualize` (data_pipeline.py:68-107) is plotting and pandas aggregation with no logic of its own.
- The command line, CSV writing and the final message (data_pipeline.py:109-119) are I/O.
- The data-frame machinery is not modelled: column dtypes (for example `year` becoming floating point when some values are missing), the index, and `copy`. The one data-frame behaviour modelled is that a frame built from no rows has no `period` column (see Findings).
- Older pandas versions treat `replace('', None)` on data_pipeline.py:54 as a forward fill. The model follows the intended replacement of the empty string by an absent value.
- Python's `\d` and `str.strip` also accept non-ASCII digits and whitespace (for example U+00A0 and U+0660). The model restricts them to the ASCII digits and the ASCII whitespace characters that `str.isspace` accepts.
- Record fields that hold a non-string JSON value (a number for `period`, say) are not modelled. This covers the `isinstance(s, str)` test of data_pipeline.py:57 and the missing value that `.str.strip()` gives for non-strings. Every text field is an optional string.
- A negative `n`, for which `ids[:n]` drops elements from the end, is excluded: `n` is a `nat`.

## Findings

| source | as written | input that shows it | evidently intended | confidence | as-written member | corrected member |
|---|---|---|---|---|---|---|
| data_pipeline.py:48-54 | `pd.DataFrame(rows)` with an empty `rows` has no columns, so `df['period']` in `clean` raises `KeyError` | a search response whose `objectIDs` is missing or null, `--n 0`, or every object fetch failing | an empty dataset that cleans to an empty dataset, as every non-empty one cleans without error | high, not executed | Cleaner.PipelineAsWritten | Cleaner.AsWrittenFailsWhenEveryFetchFails | data_pipeline.py:29-54 | when every fetch of the first `n` identifiers fails, the pipeline as written raises on the missing `period` column |
| Cleaner.Pipeline |

`Cleaner.AsWrittenFailsWithoutRows` exhibits the missing or null `objectIDs`
and `n = 0` inputs for the as-written pipeline, and
`Cleaner.AsWrittenFailsWhenEveryFetchFails` the input where every fetch fails. `Cleaner.PipelineCorrectsAsWritten` proves that the
corrected pipeline returns the empty dataset there and agrees with the
as-written one everywhere else.

=== FILE: cleaner.dfy ===
/** `clean`: the derived columns `period_clean` and `year`, and the pipeline
    `collect` followed by `clean`.
 */
module Cleaner {
  import opened Wrappers
  import opened Text
  import opened Years
  import opened Records
  import opened Collector

  /** `period_clean`: the period with surrounding whitespace removed, and
      absent when the period is absent or the result would be empty. */
  function PeriodClean(period: Option<string>): (pc: Option<string>)
    ensures pc != Some("")
    ensures pc.None? <==> period.None? || AllSpace(period.value)
    ensures pc.Some? ==> exists a, b :: IsStripBounds(period.value, a, b) && pc.value == period.value[a..b]
  {
    match period
    case None => None
    case Some(s) =>
      StripEmptyIff(s);
      var t := Strip(s);
      if t == [] then None else Some(t)
  }

  /** Cleaning an already clean period changes nothing: trimming is idempotent. */
  lemma PeriodCleanIdempotent(period: Option<string>)
    ensures PeriodClean(PeriodClean(period)) == PeriodClean(period)
  {
    match period
    case None =>
    case Some(s) =>
      var t := Strip(s);
      StripEmptyIff(s);
      if t != [] {
        StripIdempotent(s);
        StripEmptyIff(t);
        assert PeriodClean(Some(t)) == Some(t);
      }
  }

  /** The two derived columns of a row with the given period. */
  function DeriveColumns(period: Option<string>): (d: Derived)
    ensures d.periodClean != Some("")
    ensures d.year.Some? ==> d.periodClean.Some? && 0 <= d.year.value <= 9999
  {
    var pc := PeriodClean(period);
    Derived(pc, ExtractYear(pc))
  }

  /** One row of `clean`'s result: the row with the derived columns set and
      every original column unchanged. */
  function CleanRow(row: Row): (c: Row)
    ensures c.(derived := row.derived) == row
    ensures c.derived.Some?
  {
    row.(derived := Some(DeriveColumns(row.period)))
  }

  /** `clean`: a new dataset, row by row. */
  function Clean(rows: seq<Row>): (r: seq<Row>)
    ensures |r| == |rows|
    ensures forall k :: 0 <= k < |rows| ==> r[k] == CleanRow(rows[k])
  {
    seq(|rows|, k requires 0 <= k < |rows| => CleanRow(rows[k]))
  }

  /** `clean` only adds the two columns: every other column of every row, and
      the row order, are as before. */
  lemma CleanKeepsColumns(rows: seq<Row>)
    ensures |Clean(rows)| == |rows|
    ensures forall k :: 0 <= k < |rows| ==>
      Clean(rows)[k].(derived := None) == rows[k].(derived := None)
    ensures RowIds(Clean(rows)) == RowIds(rows)
  {
  }

  /** Cleaning twice gives the same dataset as cleaning once. */
  lemma CleanIdempotent(rows: seq<Row>)
    ensures Clean(Clean(rows)) == Clean(rows)
  {
  }

  /** What `clean` promises of every row it returns: `period_clean` is never
      the empty string, it is absent exactly when the period is absent or all
      whitespace and otherwise the stripped period, and `year` is the year of
      `period_clean`, absent or within 0..9999. */
  lemma CleanColumns(rows: seq<Row>, k: nat)
    requires k < |rows|
    ensures var d := Clean(rows)[k].derived.value;
      && d.periodClean != Some("")
      && (d.periodClean.None? <==> rows[k].period.None? || AllSpace(rows[k].period.value))
      && (d.periodClean.Some? ==> d.periodClean.value == Strip(rows[k].period.value))
      && (d.year.Some? ==> 0 <= d.year.value <= 9999)
      && d.year == ExtractYear(d.periodClean)
  {
  }

  // ---------------------------------------------------------------------------
  // The whole pipeline, as written and as intended.

  /** Why the pipeline stops without a dataset. */
  datatype PipelineError = LookupFailed | MissingColumn(name: string)

  /** `clean(collect(...))` as written. A data frame built from an empty list of
      rows has no columns at all, so reading its `period` column raises. */
  function PipelineAsWritten(lookup: Option<SearchBody>, n: nat, fetch: Fetcher): (r: Result<seq<Row>, PipelineError>)
    ensures r.Failure? <==> lookup.None? || |Collect(lookup, n, fetch).value| == 0
  {
    match Collect(lookup, n, fetch)
    case None => Failure(LookupFailed)
    case Some(rows) =>
      if |rows| == 0 then Failure(MissingColumn("period")) else Success(Clean(rows))
  }

  /** With no identifiers to collect, the pipeline as written fails in `clean`
      instead of producing an empty dataset. */
  lemma AsWrittenFailsWithoutRows(body: SearchBody, n: nat, fetch: Fetcher)
    requires body.objectIDs.Missing? || body.objectIDs.Null? || n == 0
    ensures PipelineAsWritten(Some(body), n, fetch) == Failure(MissingColumn("period"))
  {
  }

  /** When every fetch `collect` makes fails, the pipeline as written also fails
      in `clean`, since no row was collected. */
  lemma AsWrittenFailsWhenEveryFetchFails(body: SearchBody, n: nat, fetch: Fetcher)
    requires forall oid :: oid in Take(ObjectIds(body), n) ==> fetch(oid).None?
    ensures PipelineAsWritten(Some(body), n, fetch) == Failure(MissingColumn("period"))
  {
    var ids := Take(ObjectIds(body), n);
    var rows := CollectRows(ids, fetch);
    CollectRowsPartition(ids, fetch);
    assert forall k :: 0 <= k < |rows| ==> RowIds(rows)[k] in RowIds(rows);
  }

  /** `clean(collect(...))` as intended: only a failed lookup stops the run, and
      an empty collection cleans to an empty dataset. */
  function Pipeline(lookup: Option<SearchBody>, n: nat, fetch: Fetcher): (r: Option<seq<Row>>)
    ensures r.Some? <==> lookup.Some?
    ensures r.Some? ==> |r.value| <= Min(n, |ObjectIds(lookup.value)|)
    ensures r.Some? ==> forall k :: 0 <= k < |r.value| ==> r.value[k].derived.Some?
  {
    match Collect(lookup, n, fetch)
    case None => None
    case Some(rows) => Some(Clean(rows))
  }

  /** The intended pipeline agrees with the one as written whenever that one
      succeeds, and returns the empty dataset where that one fails in `clean`. */
  lemma PipelineCorrectsAsWritten(lookup: Option<SearchBody>, n: nat, fetch: Fetcher)
    ensures PipelineAsWritten(lookup, n, fetch).Success? ==>
      Pipeline(lookup, n, fetch) == Some(PipelineAsWritten(lookup, n, fetch).value)
    ensures PipelineAsWritten(lookup, n, fetch) == Failure(MissingColumn("period")) ==>
      Pipeline(lookup, n, fetch) == Some([])
    ensures PipelineAsWritten(lookup, n, fetch) == Failure(LookupFailed) <==>
      Pipeline(lookup, n, fetch).None?
  {
  }
}

=== FILE: collector.dfy ===
/** `fetch_object_ids` and `collect`: the ID lookup's defaulting, the truncation
    to the sample size and the fetch-each-and-skip-failures loop. The network is
    abstracted: the lookup is given by its outcome and the object endpoint by a
    function from identifier to optional record (`None` when the fetch raised).
 */
module Collector {
  import opened Wrappers
  import opened Records

  /** The `objectIDs` field of the search response: missing, `null`, or a list. */
  datatype IdsField = Missing | Null | Ids(ids: seq<ObjectID>)

  /** The parts of the search response the pipeline reads. */
  datatype SearchBody = SearchBody(objectIDs: IdsField)

  /** The object endpoint: the record for an identifier, or `None` when the request
      or the projection raised. */
  type Fetcher = ObjectID -> Option<ObjectRecord>

  /** The identifiers of `fetch_object_ids`: the list when there is one, and
      empty when the field is missing or null. */
  function ObjectIds(body: SearchBody): (ids: seq<ObjectID>)
    ensures body.objectIDs.Ids? ==> ids == body.objectIDs.ids
    ensures body.objectIDs.Missing? || body.objectIDs.Null? ==> ids == []
  {
    match body.objectIDs
    case Ids(ids) => ids
    case _ => []
  }

  /** Python's `ids[:n]` for `n >= 0`: the first `n` identifiers, or all of them. */
  function Take(ids: seq<ObjectID>, n: nat): (r: seq<ObjectID>)
    ensures |r| == Min(n, |ids|)
    ensures r == ids[..|r|]
  {
    if n < |ids| then ids[..n] else ids
  }

  /** The identifiers of a dataset's rows, in order. */
  function RowIds(rows: seq<Row>): (ids: seq<ObjectID>)
    ensures |ids| == |rows|
    ensures forall k :: 0 <= k < |rows| ==> ids[k] == rows[k].objectID
  {
    if rows == [] then [] else [rows[0].objectID] + RowIds(rows[1..])
  }

  /** `a` is `b` with some elements left out, in the same order. */
  ghost predicate IsSubsequence<T>(a: seq<T>, b: seq<T>)
    decreases |b|
  {
    if a == [] then true
    else if b == [] then false
    else (a[0] == b[0] && IsSubsequence(a[1..], b[1..])) || IsSubsequence(a, b[1..])
  }

  /** The row is the projection of the record fetched under its own identifier. */
  ghost predicate FetchedRow(row: Row, fetch: Fetcher)
  {
    fetch(row.objectID).Some? && row == Project(row.objectID, fetch(row.objectID).value)
  }

  /** The rows one identifier contributes: its projection, or none when its fetch fails. */
  function Step(oid: ObjectID, fetch: Fetcher): (rows: seq<Row>)
  {
    match fetch(oid)
    case Some(rec) => [Project(oid, rec)]
    case None => []
  }

  /** The body of `collect`'s loop over `ids`: fetch each identifier in order,
      keep the projection of every success and skip every failure. */
  function CollectRows(ids: seq<ObjectID>, fetch: Fetcher): (rows: seq<Row>)
    ensures |rows| <= |ids|
  {
    if ids == [] then [] else Step(ids[0], fetch) + CollectRows(ids[1..], fetch)
  }

  lemma SubsequenceKeep<T>(x: T, a: seq<T>, b: seq<T>)
    requires IsSubsequence(a, b)
    ensures IsSubsequence([x] + a, [x] + b)
  {
    assert ([x] + a)[1..] == a && ([x] + b)[1..] == b;
  }

  lemma SubsequenceSkip<T>(x: T, a: seq<T>, b: seq<T>)
    requires IsSubsequence(a, b)
    ensures IsSubsequence(a, [x] + b)
  {
    assert ([x] + b)[1..] == b;
  }

  /** The rows come in identifier order, each one the projection of the record
      fetched under its own identifier. */
  lemma {:induction false} CollectRowsOrder(ids: seq<ObjectID>, fetch: Fetcher)
    ensures IsSubsequence(RowIds(CollectRows(ids, fetch)), ids)
    ensures forall k :: 0 <= k < |CollectRows(ids, fetch)| ==> FetchedRow(CollectRows(ids, fetch)[k], fetch)
  {
    if ids != [] {
      CollectRowsOrder(ids[1..], fetch);
      var rest := CollectRows(ids[1..], fetch);
      var rows := CollectRows(ids, fetch);
      assert ids == [ids[0]] + ids[1..];
      match fetch(ids[0])
      case Some(rec) =>
        assert rows == [Project(ids[0], rec)] + rest;
        assert RowIds(rows) == [ids[0]] + RowIds(rest);
        SubsequenceKeep(ids[0], RowIds(rest), ids[1..]);
      case None =>
        assert rows == rest;
        SubsequenceSkip(ids[0], RowIds(rest), ids[1..]);
    }
  }

  /** The identifiers whose fetch fails, in order: the diagnostics `collect` prints. */
  function FailedIds(ids: seq<ObjectID>, fetch: Fetcher): (failed: seq<ObjectID>)
    ensures |failed| <= |ids|
    ensures forall k :: 0 <= k < |failed| ==> fetch(failed[k]).None?
  {
    if ids == [] then []
    else (if fetch(ids[0]).None? then [ids[0]] else []) + FailedIds(ids[1..], fetch)
  }

  /** `collect`: `None` when the ID lookup raised (the run aborts), and otherwise
      the rows collected from the first `n` identifiers. */
  function Collect(lookup: Option<SearchBody>, n: nat, fetch: Fetcher): (r: Option<seq<Row>>)
    ensures r.None? <==> lookup.None?
    ensures r.Some? ==> |r.value| <= Min(n, |ObjectIds(lookup.value)|)
  {
    match lookup
    case None => None
    case Some(body) => Some(CollectRows(Take(ObjectIds(body), n), fetch))
  }

  /** The rows `collect` returns follow the truncated identifier list in order,
      and each is the projection of the record fetched under its identifier. */
  lemma CollectOrder(body: SearchBody, n: nat, fetch: Fetcher)
    ensures IsSubsequence(RowIds(Collect(Some(body), n, fetch).value), Take(ObjectIds(body), n))
    ensures var rows := Collect(Some(body), n, fetch).value;
      forall k :: 0 <= k < |rows| ==> FetchedRow(rows[k], fetch)
  {
    CollectRowsOrder(Take(ObjectIds(body), n), fetch);
  }

  /** Collecting a concatenation collects each part in turn. */
  lemma {:induction false} CollectRowsAppend(a: seq<ObjectID>, b: seq<ObjectID>, fetch: Fetcher)
    ensures CollectRows(a + b, fetch) == CollectRows(a, fetch) + CollectRows(b, fetch)
    ensures FailedIds(a + b, fetch) == FailedIds(a, fetch) + FailedIds(b, fetch)
  {
    if a != [] {
      assert (a + b)[0] == a[0];
      assert (a + b)[1..] == a[1..] + b;
      CollectRowsAppend(a[1..], b, fetch);
    } else {
      assert a + b == b;
    }
  }

  /** Collecting one identifier is one step of the loop. */
  lemma CollectOne(oid: ObjectID, fetch: Fetcher)
    ensures CollectRows([oid], fetch) == Step(oid, fetch)
    ensures FailedIds([oid], fetch) == (if fetch(oid).None? then [oid] else [])
  {
    assert [oid][1..] == [];
  }

  /** A failed fetch drops exactly its own identifier: the loop carries on and
      the rows of the identifiers around it are unaffected. */
  lemma FailureDropsOnlyItsId(a: seq<ObjectID>, oid: ObjectID, b: seq<ObjectID>, fetch: Fetcher)
    requires fetch(oid).None?
    ensures CollectRows(a + [oid] + b, fetch) == CollectRows(a, fetch) + CollectRows(b, fetch)
    ensures FailedIds(a + [oid] + b, fetch) == FailedIds(a, fetch) + [oid] + FailedIds(b, fetch)
  {
    CollectRowsAppend(a, [oid], fetch);
    CollectRowsAppend(a + [oid], b, fetch);
    CollectOne(oid, fetch);
    assert CollectRows(a, fetch) + [] == CollectRows(a, fetch);
  }

  /** Every identifier either yields a row or is logged as failed, never both. */
  lemma {:induction false} CollectRowsPartition(ids: seq<ObjectID>, fetch: Fetcher)
    ensures |CollectRows(ids, fetch)| + |FailedIds(ids, fetch)| == |ids|
    ensures forall oid :: oid in RowIds(CollectRows(ids, fetch)) <==> oid in ids && fetch(oid).Some?
    ensures forall oid :: oid in FailedIds(ids, fetch) <==> oid in ids && fetch(oid).None?
  {
    if ids != [] {
      CollectRowsPartition(ids[1..], fetch);
      var rows := CollectRows(ids, fetch);
      var rest := CollectRows(ids[1..], fetch);
      assert ids == [ids[0]] + ids[1..];
      match fetch(ids[0])
      case Some(rec) =>
        assert rows == [Project(ids[0], rec)] + rest;
        assert RowIds(rows) == [ids[0]] + RowIds(rest);
      case None =>
        assert rows == rest;
    }
  }

  /** When every fetch succeeds, every identifier yields its row, in order. */
  lemma {:induction false} AllFetchedKeepsAll(ids: seq<ObjectID>, fetch: Fetcher)
    requires forall k :: 0 <= k < |ids| ==> fetch(ids[k]).Some?
    ensures RowIds(CollectRows(ids, fetch)) == ids
    ensures |CollectRows(ids, fetch)| == |ids|
  {
    if ids != [] {
      AllFetchedKeepsAll(ids[1..], fetch);
      var rows := CollectRows(ids, fetch);
      var rec := fetch(ids[0]).value;
      assert rows == [Project(ids[0], rec)] + CollectRows(ids[1..], fetch);
      assert RowIds(rows) == [ids[0]] + RowIds(CollectRows(ids[1..], fetch));
    }
  }

  /** With every fetch `collect` makes succeeding (identifiers past `n` are
      never fetched), it returns exactly `min(n, |ids|)` rows. */
  lemma CollectAllFetched(body: SearchBody, n: nat, fetch: Fetcher)
    requires forall oid :: oid in Take(ObjectIds(body), n) ==> fetch(oid).Some?
    ensures Collect(Some(body), n, fetch).Some?
    ensures RowIds(Collect(Some(body), n, fetch).value) == Take(ObjectIds(body), n)
    ensures |Collect(Some(body), n, fetch).value| == Min(n, |ObjectIds(body)|)
  {
    var ids := Take(ObjectIds(body), n);
    forall k | 0 <= k < |ids| ensures fetch(ids[k]).Some? {
      var oid := ids[k];
      assert oid in Take(ObjectIds(body), n);
    }
    AllFetchedKeepsAll(ids, fetch);
  }

  /** A missing or null `objectIDs` field gives no rows, whatever the sample size. */
  lemma CollectNoIds(body: SearchBody, n: nat, fetch: Fetcher)
    requires body.objectIDs.Missing? || body.objectIDs.Null?
    ensures Collect(Some(body), n, fetch) == Some([])
  {
  }

  /** Lookup returns [1, 2, 3], the sample size is 3 and only the fetch of 2 fails:
      the dataset holds the rows of 1 and 3, in that order. */
  lemma CollectScenario(rec: ObjectRecord)
    ensures var fetch := (oid: ObjectID) => if oid == 2 then None else Some(rec);
      var r := Collect(Some(SearchBody(Ids([1, 2, 3]))), 3, fetch);
      && r.Some?
      && RowIds(r.value) == [1, 3]
      && r.value == [Project(1, rec), Project(3, rec)]
  {
    var fetch := (oid: ObjectID) => if oid == 2 then None else Some(rec);
    var ids: seq<ObjectID> := [1, 2, 3];
    assert Take(ids, 3) == ids;
    assert [1] + [2] + [3] == ids;
    FailureDropsOnlyItsId([1], 2, [3], fetch);
    CollectOne(1, fetch);
    CollectOne(3, fetch);
    var rows := [Project(1, rec), Project(3, rec)];
    assert CollectRows(ids, fetch) == rows;
    assert RowIds(rows) == [1, 3];
  }

  /** `collect` as the loop it is written as: walk the truncated identifiers in
      order, appending a row for each successful fetch and logging each failure. */
  method CollectSample(lookup: Option<SearchBody>, n: nat, fetch: Fetcher)
    returns (rows: Option<seq<Row>>, failed: seq<ObjectID>)
    ensures rows == Collect(lookup, n, fetch)
    ensures lookup.None? ==> failed == []
    ensures lookup.Some? ==> failed == FailedIds(Take(ObjectIds(lookup.value), n), fetch)
    ensures lookup.Some? ==> |rows.value| + |failed| == Min(n, |ObjectIds(lookup.value)|)
    ensures lookup.Some? ==> IsSubsequence(failed, Take(ObjectIds(lookup.value), n))
    ensures forall k :: 0 <= k < |failed| ==> fetch(failed[k]).None?
  {
    if lookup.None? {
      return None, [];
    }
    var ids := Take(ObjectIds(lookup.value), n);
    var acc: seq<Row> := [];
    failed := [];
    for i := 0 to |ids|
      invariant acc == CollectRows(ids[..i], fetch)
      invariant failed == FailedIds(ids[..i], fetch)
    {
      var oid := ids[i];
      CollectSnoc(ids[..i], oid, fetch);
      assert ids[..i + 1] == ids[..i] + [oid];
      match fetch(oid)
      case Some(rec) =>
        acc := acc + [Project(oid, rec)];
      case None =>
        failed := failed + [oid];
    }
    assert ids[..|ids|] == ids;
    CollectRowsPartition(ids, fetch);
    FailedIsSubsequence(ids, fetch);
    rows := Some(acc);
  }

  /** One more identifier adds its step at the end. */
  lemma CollectSnoc(ids: seq<ObjectID>, oid: ObjectID, fetch: Fetcher)
    ensures CollectRows(ids + [oid], fetch) == CollectRows(ids, fetch) + Step(oid, fetch)
    ensures FailedIds(ids + [oid], fetch) == FailedIds(ids, fetch) + (if fetch(oid).None? then [oid] else [])
  {
    CollectRowsAppend(ids, [oid], fetch);
    CollectOne(oid, fetch);
  }

  /** The failure log lists the failing identifiers in the order they were tried. */
  lemma {:induction false} FailedIsSubsequence(ids: seq<ObjectID>, fetch: Fetcher)
    ensures IsSubsequence(FailedIds(ids, fetch), ids)
  {
    if ids != [] {
      FailedIsSubsequence(ids[1..], fetch);
      var f := FailedIds(ids, fetch);
      if fetch(ids[0]).None? {
        assert f[0] == ids[0] && f[1..] == FailedIds(ids[1..], fetch);
      } else if f != [] {
        assert f == FailedIds(ids[1..], fetch);
      }
    }
  }
}

=== FILE: records.dfy ===
/** The catalog record returned by the object endpoint and the flat row the
    collector builds from it.
 */
module Records {
  import opened Wrappers

  /** The remote catalog's identifier of an object. */
  type ObjectID = int

  /** The fields of an object record that the pipeline reads. Every field may
      be missing from the JSON body or null; both are `None` here. */
  datatype ObjectRecord = ObjectRecord(
    objectID: Option<int>,
    title: Option<string>,
    artistDisplayName: Option<string>,
    culture: Option<string>,
    period: Option<string>,
    objectDate: Option<string>,
    medium: Option<string>,
    dimensions: Option<string>,
    classification: Option<string>,
    primaryImage: Option<string>,
    isPublicDomain: Option<bool>,
    objectURL: Option<string>)

  /** The two columns `clean` adds to a row. */
  datatype Derived = Derived(periodClean: Option<string>, year: Option<int>)

  /** One row of the dataset. `derived` is `None` until the row is cleaned. */
  datatype Row = Row(
    objectID: ObjectID,
    title: Option<string>,
    artistDisplayName: Option<string>,
    culture: Option<string>,
    period: Option<string>,
    medium: Option<string>,
    dimensions: Option<string>,
    classification: Option<string>,
    primaryImage: Option<string>,
    isPublicDomain: Option<bool>,
    objectURL: Option<string>,
    derived: Option<Derived>)

  /** Python's `a or b` on two optional strings: `a` when it is truthy, that is
      present and non-empty, and `b` otherwise. */
  function Or(a: Option<string>, b: Option<string>): (r: Option<string>)
  {
    if a.Some? && a.value != "" then a else b
  }

  /** The row built for the object fetched under `oid`. */
  function Project(oid: ObjectID, rec: ObjectRecord): (row: Row)
    ensures row.objectID == oid
    ensures row.derived.None?
  {
    Row(
      oid,
      rec.title,
      rec.artistDisplayName,
      rec.culture,
      Or(rec.period, rec.objectDate),
      rec.medium,
      rec.dimensions,
      rec.classification,
      rec.primaryImage,
      rec.isPublicDomain,
      rec.objectURL,
      None)
  }

  /** A row's `period` is the record's `period` when that is present and
      non-empty and the record's `objectDate` otherwise; its identifier is the
      one it was fetched under, whatever the record itself says. */
  lemma ProjectPeriod(oid: ObjectID, rec: ObjectRecord)
    ensures rec.period.Some? && rec.period.value != "" ==> Project(oid, rec).period == rec.period
    ensures rec.period.None? || rec.period == Some("") ==> Project(oid, rec).period == rec.objectDate
    ensures Project(oid, rec).period.None? <==>
      (rec.period.None? || rec.period == Some("")) && rec.objectDate.None?
    ensures Project(oid, rec).objectID == oid
  {
  }

  /** Every other column is copied from the record unchanged. */
  lemma ProjectCopies(oid: ObjectID, rec: ObjectRecord)
    ensures var row := Project(oid, rec);
      && row.title == rec.title
      && row.artistDisplayName == rec.artistDisplayName
      && row.culture == rec.culture
      && row.medium == rec.medium
      && row.dimensions == rec.dimensions
      && row.classification == rec.classification
      && row.primaryImage == rec.primaryImage
      && row.isPublicDomain == rec.isPublicDomain
      && row.objectURL == rec.objectURL
  {
  }
}

=== FILE: text.dfy ===
/** Character classes and the whitespace trimming that `str.strip()` performs,
    restricted to ASCII.
 */
module Text {

  /** The ASCII characters `str.isspace` accepts: tab, line feed, vertical tab,
      form feed, carriage return, the four information separators and space. */
  predicate IsSpace(c: char)
  {
    || ('\U{9}' <= c <= '\U{D}')
    || ('\U{1C}' <= c <= '\U{1F}')
    || c == ' '
  }

  /** An ASCII decimal digit, the characters `\d` matches in this model. */
  predicate IsDigit(c: char)
  {
    '0' <= c <= '9'
  }

  predicate AllSpace(s: string)
  {
    forall k :: 0 <= k < |s| ==> IsSpace(s[k])
  }

  /** The first position at or after `i` that does not hold whitespace, or `|s|`. */
  function SkipSpaces(s: string, i: nat): (a: nat)
    requires i <= |s|
    decreases |s| - i
    ensures i <= a <= |s|
    ensures forall k :: i <= k < a ==> IsSpace(s[k])
    ensures a < |s| ==> !IsSpace(s[a])
  {
    if i < |s| && IsSpace(s[i]) then SkipSpaces(s, i + 1) else i
  }

  /** Walking back from `j` but not below `lo`, the position just after the last
      character that is not whitespace, or `lo`. */
  function SkipSpacesBack(s: string, lo: nat, j: nat): (b: nat)
    requires lo <= j <= |s|
    decreases j - lo
    ensures lo <= b <= j
    ensures forall k :: b <= k < j ==> IsSpace(s[k])
    ensures lo < b ==> !IsSpace(s[b - 1])
  {
    if lo < j && IsSpace(s[j - 1]) then SkipSpacesBack(s, lo, j - 1) else j
  }

  /** `s[a..b]` is what `str.strip()` keeps of `s`: only whitespace lies
      outside it and it neither starts nor ends with whitespace. */
  ghost predicate IsStripBounds(s: string, a: int, b: int)
  {
    && 0 <= a <= b <= |s|
    && (forall k :: 0 <= k < a ==> IsSpace(s[k]))
    && (forall k :: b <= k < |s| ==> IsSpace(s[k]))
    && (a < b ==> !IsSpace(s[a]) && !IsSpace(s[b - 1]))
  }

  /** Python's `str.strip()` with no argument: leading whitespace is skipped,
      then trailing whitespace. */
  function Strip(s: string): (r: string)
    ensures exists a, b :: IsStripBounds(s, a, b) && r == s[a..b]
  {
    var a := SkipSpaces(s, 0);
    var b := SkipSpacesBack(s, a, |s|);
    assert IsStripBounds(s, a, b);
    s[a..b]
  }

  /** The strip of a string is unique: any infix with the stripped shape is
      exactly what `Strip` returns. */
  lemma StripUnique(s: string, a: int, b: int)
    requires IsStripBounds(s, a, b)
    ensures Strip(s) == s[a..b]
  {
    var a0 := SkipSpaces(s, 0);
    var b0 := SkipSpacesBack(s, a0, |s|);
    if a < b {
      assert a0 == a by {
        assert a0 <= a;
      }
      assert b0 == b by {
        assert b <= b0;
      }
    } else {
      assert a0 == |s| by {
        assert forall k :: 0 <= k < |s| ==> IsSpace(s[k]);
      }
    }
  }

  /** Stripping twice is stripping once. */
  lemma StripIdempotent(s: string)
    ensures Strip(Strip(s)) == Strip(s)
  {
    var t := Strip(s);
    var a, b :| IsStripBounds(s, a, b) && t == s[a..b];
    assert IsStripBounds(t, 0, |t|);
    StripUnique(t, 0, |t|);
    assert t[0..|t|] == t;
  }

  /** The strip is empty exactly when the string is all whitespace. */
  lemma StripEmptyIff(s: string)
    ensures Strip(s) == [] <==> AllSpace(s)
  {
    var t := Strip(s);
    var a, b :| IsStripBounds(s, a, b) && t == s[a..b];
    if AllSpace(s) {
      assert IsStripBounds(s, 0, 0);
      StripUnique(s, 0, 0);
    }
    if t == [] {
      assert a == b;
    }
  }
}

=== FILE: wrappers.dfy ===
/** Option and Result datatypes shared by the modules.
    - Option<T> stands for a value that Python represents as `None` when absent.
    - Result<R, E> stands for a computation that may raise instead of returning.
 */
module Wrappers {

  /** A value that may be absent (Python's `None`). */
  datatype Option<+T> = None | Some(value: T)

  /** Either a value or the error that was raised instead. */
  datatype Result<+R, +E> = Success(value: R) | Failure(error: E)

  function Min(a: int, b: int): (m: int)
  {
    if a <= b then a else b
  }
}

=== FILE: years.dfy ===
/** The heuristic year of `clean`: the first match of the regular expression
    `(\d{3,4})` in the cleaned period text, read as a decimal integer.
 */
module Years {
  import opened Wrappers
  import opened Text

  /** The regular expression `\d{3,4}` can match at position `i`: three digits start there. */
  predicate MatchesAt(s: string, i: nat)
  {
    i + 3 <= |s| && IsDigit(s[i]) && IsDigit(s[i + 1]) && IsDigit(s[i + 2])
  }

  /** Length of the greedy match of `\d{3,4}` at `i`: a fourth digit is taken when there is one. */
  function MatchLength(s: string, i: nat): (m: nat)
    requires MatchesAt(s, i)
    ensures 3 <= m <= 4 && i + m <= |s|
    ensures forall k :: i <= k < i + m ==> IsDigit(s[k])
    ensures m == 3 ==> i + 3 == |s| || !IsDigit(s[i + 3])
  {
    if i + 4 <= |s| && IsDigit(s[i + 3]) then 4 else 3
  }

  /** `re.search`: the leftmost position at or after `i` where a match starts. */
  function Search(s: string, i: nat): (r: Option<nat>)
    requires i <= |s|
    decreases |s| - i
    ensures r.Some? ==> i <= r.value && MatchesAt(s, r.value)
    ensures r.Some? ==> forall k :: i <= k < r.value ==> !MatchesAt(s, k)
    ensures r.None? ==> forall k :: i <= k <= |s| ==> !MatchesAt(s, k)
  {
    if i + 3 > |s| then None
    else if MatchesAt(s, i) then Some(i)
    else Search(s, i + 1)
  }

  function Pow10(n: nat): (p: nat)
    ensures p >= 1
  {
    if n == 0 then 1 else 10 * Pow10(n - 1)
  }

  predicate AllDigits(d: string)
  {
    forall k :: 0 <= k < |d| ==> IsDigit(d[k])
  }

  function DigitValue(c: char): (v: nat)
    requires IsDigit(c)
  {
    (c as int) - ('0' as int)
  }

  /** Python's `int` applied to a string of decimal digits (leading zeros allowed). */
  function DecimalValue(d: string): (v: nat)
    requires AllDigits(d)
    ensures v < Pow10(|d|)
  {
    if d == [] then 0
    else DecimalValue(d[..|d| - 1]) * 10 + DigitValue(d[|d| - 1])
  }

  /** `extract_year`: absent for an absent or empty text, otherwise the value of
      the first match of `\d{3,4}`, or absent when nothing matches. */
  function ExtractYear(text: Option<string>): (y: Option<int>)
    ensures y.Some? ==> 0 <= y.value <= 9999
    ensures y.Some? <==> text.Some? && exists i: nat :: MatchesAt(text.value, i)
  {
    match text
    case None => None
    case Some(s) =>
      if s == [] then None
      else
        match Search(s, 0)
        case None => None
        case Some(i) =>
          var m := MatchLength(s, i);
          var d := s[i..i + m];
          assert Pow10(|d|) <= 10000 by {
            assert Pow10(3) == 1000;
            assert Pow10(4) == 10000;
          }
          Some(DecimalValue(d))
  }

  // ---------------------------------------------------------------------------
  // Reference definition: maximal runs of digits, scanned run by run.

  /** The number of consecutive digits of `s` starting at `i`. */
  function DigitRun(s: string, i: nat): (n: nat)
    requires i <= |s|
    decreases |s| - i
    ensures i + n <= |s|
    ensures forall k :: i <= k < i + n ==> IsDigit(s[k])
    ensures i + n == |s| || !IsDigit(s[i + n])
  {
    if i < |s| && IsDigit(s[i]) then 1 + DigitRun(s, i + 1) else 0
  }

  /** The start of the first run of at least three digits at or after `i`;
      runs of one or two digits are skipped whole. */
  function FirstLongRun(s: string, i: nat): (r: Option<nat>)
    requires i <= |s|
    decreases |s| - i
    ensures r.Some? ==> i <= r.value < |s| && DigitRun(s, r.value) >= 3
  {
    if i == |s| then None
    else if !IsDigit(s[i]) then FirstLongRun(s, i + 1)
    else if DigitRun(s, i) >= 3 then Some(i)
    else FirstLongRun(s, i + DigitRun(s, i))
  }

  /** Reference definition of the year: the first four digits of the
      leftmost run of three or more digits. */
  function RunYear(s: string): (y: Option<int>)
  {
    match FirstLongRun(s, 0)
    case None => None
    case Some(i) => Some(DecimalValue(s[i..i + Min(DigitRun(s, i), 4)]))
  }

  /** The reference scan finds the leftmost position where three digits start,
      and nothing when there is no such position. */
  lemma FirstLongRunIsLeftmost(s: string)
    ensures var r := FirstLongRun(s, 0);
      && (r.Some? ==> MatchesAt(s, r.value) && forall k :: 0 <= k < r.value ==> !MatchesAt(s, k))
      && (r.None? <==> forall k :: 0 <= k <= |s| ==> !MatchesAt(s, k))
  {
    SearchIsFirstLongRun(s, 0);
  }

  /** No match starts inside a run of fewer than three digits. */
  lemma {:induction false} SearchSkips(s: string, i: nat, j: nat)
    requires i <= j <= |s|
    requires forall k :: i <= k < j ==> !MatchesAt(s, k)
    ensures Search(s, i) == Search(s, j)
    decreases j - i
  {
    if i < j {
      SearchSkips(s, i + 1, j);
    }
  }

  /** Position-by-position search and run-by-run search find the same start. */
  lemma {:induction false} SearchIsFirstLongRun(s: string, i: nat)
    requires i <= |s|
    ensures Search(s, i) == FirstLongRun(s, i)
    decreases |s| - i
  {
    if i == |s| {
    } else if !IsDigit(s[i]) {
      SearchIsFirstLongRun(s, i + 1);
    } else if DigitRun(s, i) >= 3 {
      assert MatchesAt(s, i);
    } else {
      var n := DigitRun(s, i);
      forall k | i <= k < i + n ensures !MatchesAt(s, k) {
        assert i + n < k + 3;
      }
      SearchSkips(s, i, i + n);
      SearchIsFirstLongRun(s, i + n);
    }
  }

  /** `extract_year` returns the value of the first four digits of the
      leftmost run of at least three digits, and nothing when there is none. */
  lemma ExtractYearIsRunYear(s: string)
    ensures ExtractYear(Some(s)) == RunYear(s)
  {
    SearchIsFirstLongRun(s, 0);
    match Search(s, 0)
    case None =>
    case Some(i) =>
      assert MatchLength(s, i) == Min(DigitRun(s, i), 4);
  }

  /** `DecimalValue` of a four-digit string, spelled out digit by digit. */
  lemma DecimalValue4(d: string)
    requires |d| == 4 && AllDigits(d)
    ensures DecimalValue(d) ==
      1000 * DigitValue(d[0]) + 100 * DigitValue(d[1]) + 10 * DigitValue(d[2]) + DigitValue(d[3])
  {
    DecimalValue3(d[..3]);
    assert d[..3][0] == d[0] && d[..3][1] == d[1] && d[..3][2] == d[2];
  }

  /** `DecimalValue` of a three-digit string, spelled out digit by digit. */
  lemma DecimalValue3(d: string)
    requires |d| == 3 && AllDigits(d)
    ensures DecimalValue(d) == 100 * DigitValue(d[0]) + 10 * DigitValue(d[1]) + DigitValue(d[2])
  {
    var d1, d2 := d[..1], d[..2];
    assert d1[..0] == [];
    assert DecimalValue(d1) == DigitValue(d[0]);
    assert d2[..1] == d1;
    assert DecimalValue(d2) == 10 * DigitValue(d[0]) + DigitValue(d[1]);
    assert d[..2] == d2;
  }

  /** "ca. 1850" gives 1850. */
  lemma YearOfCirca()
    ensures ExtractYear(Some("ca. 1850")) == Some(1850)
  {
    var s := "ca. 1850";
    SearchSkips(s, 0, 4);
    assert MatchesAt(s, 4);
    assert s[4..8] == "1850";
    DecimalValue4("1850");
  }

  /** In "Tang dynasty (618-907)" the first match starts at position 14. */
  lemma TangSearch()
    ensures Search("Tang dynasty (618-907)", 0) == Some(14)
  {
    var p, q := "Tang dynasty (", "618-907)";
    var s := p + q;
    assert s == "Tang dynasty (618-907)";
    assert forall k :: 0 <= k < |p| ==> !IsDigit(p[k]);
    assert forall k :: 0 <= k < |p| ==> s[k] == p[k];
    SearchSkips(s, 0, |p|);
    assert s[14] == q[0] && s[15] == q[1] && s[16] == q[2];
    assert MatchesAt(s, 14);
  }

  /** "Tang dynasty (618-907)" gives 618: the first run wins. */
  lemma YearOfTang()
    ensures ExtractYear(Some("Tang dynasty (618-907)")) == Some(618)
  {
    var s := "Tang dynasty (618-907)";
    TangSearch();
    assert MatchLength(s, 14) == 3 by {
      assert s[17] == '-';
    }
    assert s[14..17] == "618";
    DecimalValue3("618");
  }

  /** "Unknown" has no digits, so no year. */
  lemma YearOfUnknown()
    ensures ExtractYear(Some("Unknown")) == None
  {
    var s := "Unknown";
    SearchSkips(s, 0, |s|);
  }

  /** A run longer than four digits contributes only its first four. */
  lemma YearOfLongRun()
    ensures ExtractYear(Some("12345")) == Some(1234)
  {
    var s := "12345";
    assert MatchesAt(s, 0);
    assert s[0..4] == "1234";
    DecimalValue4("1234");
  }

  /** Runs of one or two digits are skipped: "1st-2nd c. 305" gives 305. */
  lemma YearSkipsShortRuns()
    ensures ExtractYear(Some("1st-2nd c. 305")) == Some(305)
  {
    var s := "1st-2nd c. 305";
    SearchSkips(s, 0, 11);
    assert MatchesAt(s, 11);
    assert s[11..14] == "305";
    DecimalValue3("305");
  }
}
